=== FILE: README.md ===
# WritingPad editor session, in Dafny

WritingPad is a plain-text editor that runs in the browser. It has a text
area, a filename field, and New / Open / Save actions. Files are read and
written through the File System Access API when the browser has it
(`showOpenFilePicker`, `showSaveFilePicker`, writable file handles). Without
it, the editor uploads through a hidden file input and saves by downloading
a Blob. A dropped `.txt` file is loaded into the editor, and a
`beforeunload` guard asks before leaving with unsaved changes.

This project models the editor's session state machine in `script.js`:

- the session record `EditorState.Session`: the editor text, `isModified`,
  `currentFilename`, the filename field's text, `fileHandle` and the constant
  `supportsFileSystemAPI`;
- every handler as a pure function of the session. Typing in the editor or
  the filename field gives just the new session, and the `beforeunload`
  guard gives just whether to prompt. Every other handler gives a `Step`:
  the new session plus the outside effects, in order. These are the confirm
  dialog, the pickers, committed writes, downloads, alerts and
  `preventDefault`. `Controller.Apply` turns every event into a `Step`.

Browser calls become parameters. These are the `confirm` answer, the open
picker's outcome (`OpenCancelled`, `ReadFailed`, `Opened`), the save
picker's outcome together with the write's outcome (`SaveEnv`), and each
local file's name with its `FileReader` result. Each async handler is one
atomic step. The script has two points where it stores a handle before a
later await that can fail:

- `openFileSystemFile` stores the handle before `getFile` / `text()`;
- `saveAsNewFileSystemFile` stores the handle before the write.

Both are explicit outcomes in the model.

Files: `text.dfy` (trim, `endsWith`, lower-casing), `editor_state.dfy`
(session, effects, invariant, shared load step), `native.dfy` (File System
Access path), `fallback.dfy` (upload, download, drop), `controller.dfy`
(handlers, shortcuts, the event loop), `scenarios.dfy` (properties that
span several handlers).

Where the code differs from what its comments or a reader might expect,
the model follows the code. In `script.js`:

- A drop does not clear `fileHandle`, although the comment in the drop
  handler says no handle exists. After a native open, a drop followed by a
  save therefore writes the dropped text over the file opened earlier
  (`Scenarios.DropThenSaveOverwritesEarlierFile`).
- The download fallback names the download after the normalised field text,
  but it leaves `currentFilename` unchanged.
- Save-as stores the chosen handle but does not copy its name into the
  filename field or into `currentFilename`.
- A native open whose read fails, or a save-as whose write fails, still
  leaves the picked handle stored. The failure is not "no change".
- `saveFile` tests the capability flag before it tests the handle. Under the
  invariant `Valid`, a handle exists only when the API does
  (`Scenarios.RunPreservesValid`), so this order is equivalent to testing
  the handle first.
- A drop replaces the editor text without the unsaved-changes
  confirmation that New and Open ask for.

## Model

| member | source | states |
|---|---|---|
| Text.TrimStartSpec | script.js:46 | stripping the front leaves the suffix that starts at the first non-whitespace character; everything removed is whitespace |
| Text.TrimEndSpec | script.js:46 | stripping the back leaves the prefix that ends at the last non-whitespace character; everything removed is whitespace |
| Text.Trim | script.js:46 | `trim` strips both ends: the result has no whitespace at its edges and is empty exactly when the input is all whitespace |
| Text.TrimOfPadded | script.js:46 | reference characterisation: whitespace on either side of a core with no edge whitespace is exactly what `trim` removes |
| Text.TrimSplits | script.js:46 | every string is its trimmed form with whitespace-only strings before and after it (the lemma returns those two strings) |
| Text.TrimIdempotent | script.js:46 | trimming twice is the same as trimming once |
| Text.EndsWith | script.js:327 | `endsWith(suffix)` holds exactly when the string is some prefix followed by the suffix |
| Text.ToLower | script.js:52 | lower-casing keeps the length and lowers each character on its own |
| Text.LowerIsLetter | script.js:52 | a key lower-cases to a given letter exactly when it is that letter or its capital |
| EditorState.OrDefault | script.js:159 | `name \|\| "untitled.txt"` is never empty; it is the name when that is non-empty and the default otherwise |
| EditorState.NormalizeFilename | script.js:46 | `value.trim() \|\| "untitled.txt"` is never empty and has no edge whitespace; it is the default when the value is all whitespace and the trimmed value otherwise |
| EditorState.NormalizeFilenameIdempotent | script.js:242 | normalising an already normalised filename changes nothing |
| EditorState.Start | script.js:10-26 | the start-up session is clean, named "untitled.txt", has no handle, carries the detected capability flag, keeps the page's initial editor and field text, and satisfies the invariant |
| EditorState.Load | script.js:157-160 | a successful read sets the text, clears the flag, gives both filename copies the file name when it is non-empty and "untitled.txt" when it is empty, and sets the handle the caller keeps |
| Native.OpenFileSystemFile | script.js:141-165 | without the API nothing happens; a cancelled open changes nothing; a failed read still stores the picked handle; a successful open loads the contents, clears the flag, names the file after the handle or the default, and stores the handle |
| Native.SaveAs | script.js:171-186 | only the flag and the handle can change; the picker is suggested the current filename; cancelling changes nothing; a pick stores its handle even if the write fails; writes go only to that handle, hold only the editor text, and clear the flag exactly when they succeed |
| Native.Overwrite | script.js:191-205 | with a handle: exactly one commit of the editor text to that handle when the write succeeds and no effect when it fails, the flag cleared exactly on success; with no handle it behaves as save-as: the picker first, no change when cancelled, otherwise the picked handle stored even if the write fails and writes only to it; only the flag and the handle can change |
| Fallback.HandleFileOpen | script.js:222-236 | no file or a failed read changes nothing; a read file replaces the text, clears the flag, names the file after it or the default, and drops the handle |
| Fallback.FallbackSave | script.js:241-258 | exactly one download, of the editor text under the normalised field text; the flag is cleared and nothing else changes |
| Fallback.HandleDroppedFile | script.js:324-348 | a name not ending in ".txt" raises the alert and changes nothing; an accepted readable file sets the text, clears the flag, and uses its own name; the handle is never changed |
| Fallback.Drop | script.js:312-321 | the browser's default drop action is always suppressed first; no files means no change; the handle is never changed; the alert appears exactly when the first file's name does not end in ".txt", and then nothing changes; an accepted unreadable first file changes nothing; an accepted readable one is loaded clean under its own name |
| Controller.Edit | script.js:32-34 | typing sets the text and raises the flag, and changes nothing else |
| Controller.FilenameEdit | script.js:45-47 | the field keeps the raw text; `currentFilename` becomes its non-empty normalised form; nothing else changes |
| Controller.NewFile | script.js:77-94 | the confirm dialog is shown exactly when modified; declined means no change; otherwise empty text, clean, "untitled.txt" in both filename copies, and no handle |
| Controller.OpenFile | script.js:101-114 | declined means only the dialog and no change; otherwise the native picker when the API exists and the file input otherwise, with the session change of the native open |
| Controller.ChooseSavePath | script.js:123-133 | a total three-way choice: overwrite exactly when the API exists and a handle is held, save-as exactly when the API exists and no handle is held, download exactly when the API is absent |
| Controller.SaveFile | script.js:123-133 | text and filenames never change; the flag is cleared exactly when the text was written out, and only the editor text is written; overwrite shows no picker and writes only to the held handle; save-as starts with the picker, changes nothing when cancelled, and otherwise stores the picked handle and writes only to it, clearing the flag exactly when the write succeeds; download is a single download under the normalised field text |
| Controller.Shortcut | script.js:50-69 | with Ctrl or Meta held and neither Shift nor Alt, keys n/N, o/O and s/S map to New, Open and Save; any other key or modifier combination maps to nothing |
| Controller.KeyDown | script.js:50-69 | an unrecognised key has no effect; a shortcut suppresses the default action and then runs its command |
| Controller.Apply | script.js:29-69 | every event keeps the capability flag and the invariant; typing in the editor always raises `isModified`, and no other event raises it |
| Scenarios.RunPreservesValid | script.js:10-26 | over any run of events the filename stays non-empty, a handle exists only with the API, and the capability flag never changes |
| Scenarios.ReachableIsValid | script.js:10-26 | every state reachable from start-up satisfies the invariant, and without the API it holds no handle |
| Scenarios.UnloadPromptOnlyAfterTyping | script.js:31-42 | over any run of events, the leave-page prompt is requested only if the session was already modified or some editor text was typed, and it is always requested right after editor typing |
| Scenarios.FreshPagePromptsOnlyAfterTyping | script.js:10-42 | from start-up, the document becomes modified, which is what makes leaving the page prompt, only after some editor typing |
| Scenarios.TypingSetsModified | script.js:31-47 | over a run of typing, the document is modified exactly when it was before or some editor text was typed; filename edits never raise it |
| Scenarios.DeclinedDiscardIsInert | script.js:77-114 | a declined discard from New, Open or their shortcuts shows only the dialog and changes nothing |
| Scenarios.NewFileForgets | script.js:84-93 | after New, the session depends only on the capability flag, and a second New is a no-op |
| Scenarios.SaveIgnoresModifiedFlag | script.js:123-133 | saving ignores `isModified`: sessions that differ only in it produce the same effects |
| Scenarios.OverwriteWithoutHandleSavesAs | script.js:171-205 | overwrite without a handle is save-as: one picker, then one write to the picked handle, which is stored; a failed write still stores the picked handle and leaves the flag; a cancelled pick changes nothing |
| Scenarios.FallbackRoundTrip | script.js:222-258 | re-uploading the downloaded file restores the same text, clean, under the normalised field name, with no handle |
| Scenarios.NativeOpenThenSave | script.js:141-205 | after a native open, an immediate save writes the opened contents back through the same handle without a picker |
| Scenarios.DefaultNameIsNormal | script.js:242 | "untitled.txt" and the empty field both normalise to "untitled.txt" |
| Scenarios.TypeHelloAndDownload | script.js:241-258 | on a fresh page without the API, typing "hello" and saving downloads "untitled.txt" holding "hello" and clears the flag |
| Scenarios.OpenNotesThenSave | script.js:101-205 | opening "notes.txt" holding "abc" natively loads it with its handle, and the next save overwrites it with "abc" |
| Scenarios.DropScenarios | script.js:324-348 | dropping "data.csv" is refused with the alert and no change; dropping "data.txt" loads "xyz" under its name and keeps the handle |
| Scenarios.DropThenSaveOverwritesEarlierFile | script.js:334-346 | because a drop keeps the earlier handle, the next save writes the dropped text to the previously opened file |
| Scenarios.FailedOpenKeepsPickedHandle | script.js:153-155 | a native open whose read fails keeps the old text but stores the picked handle, so the next save writes the old text into the picked file |
| Scenarios.FailedSaveAsKeepsPickedHandle | script.js:173-185 | a save-as whose write fails stores the picked handle and leaves the flag as it was, so the next save overwrites without a picker |

## Left out

- DOM lookups, the drag-hover CSS classes, the `dragover` listener and its `preventDefault`, the developer popover and the footer timer (script.js:4-8, 266-309): UI only; no session state changes there.
- Service-worker registration and console logging (script.js:352-359): side-effect plumbing that never changes the session.
- The Blob, `URL.createObjectURL` and hidden-anchor mechanics of the download: modelled as a single `Download(name, contents)` effect.
- Resetting the hidden file input's value before clicking it (script.js:214): the input's value is not session state, so this is only the `ClickFileInput` effect.
- Text decoding by `FileReader` and `File.text()`: file contents are given as already-decoded strings.
- The `.txt` type filter passed to the native pickers: which files a picker offers is browser behaviour, so the picked handle is arbitrary.
- Overlapping async handlers, such as a save started while a read is pending: each handler is one atomic step.
- The editor's and the filename field's initial text, which come from the page's HTML: the page markup is not part of this model, so `Start` takes both texts as parameters.
- Text.ToLower: lowers only the ASCII letters A-Z, not the full Unicode case mapping of `toLowerCase`.

=== FILE: controller.dfy ===
/** The event handlers of the editor script: typing, the filename field,
    the unload guard, New / Open / Save with the discard guard, and the
    Ctrl/Meta shortcuts. `Apply` is the whole event loop, one atomic
    handler per event. */
module Controller {
  import opened Text
  import opened EditorState
  import opened Native
  import opened Fallback

  /** The editor's `input` listener: the page has replaced the text, the
      handler only raises the flag. */
  function Edit(s: Session, newText: string): (r: Session)
    ensures r.text == newText && r.isModified
    ensures r.(text := s.text, isModified := s.isModified) == s
    ensures Valid(s) ==> Valid(r)
  {
    s.(text := newText, isModified := true)
  }

  /** The filename field's `input` listener: the field holds what was
      typed; `currentFilename` holds its normalised form. */
  function FilenameEdit(s: Session, raw: string): (r: Session)
    ensures r.fieldText == raw
    ensures r.currentFilename != [] && NoEdgeWhitespace(r.currentFilename)
    ensures !AllWhitespace(raw) ==> r.currentFilename == Trim(raw)
    ensures AllWhitespace(raw) ==> r.currentFilename == DefaultName
    ensures r.(fieldText := s.fieldText, currentFilename := s.currentFilename) == s
    ensures Valid(s) ==> Valid(r)
  {
    s.(fieldText := raw, currentFilename := NormalizeFilename(raw))
  }

  /** The `beforeunload` listener: whether the browser's leave-page prompt
      is requested. */
  function BeforeUnload(s: Session): bool {
    s.isModified
  }

  /** Effects of the discard guard shared by New and Open. */
  function Guard(s: Session): seq<Effect> {
    if s.isModified then [AskDiscard] else []
  }

  /** Whether New or Open goes ahead: always when clean, otherwise only on
      a confirmed discard. */
  function Proceeds(s: Session, confirmed: bool): bool {
    !s.isModified || confirmed
  }

  /** `newFile`. */
  function NewFile(s: Session, confirmed: bool): (st: Step)
    ensures st.effects == Guard(s)
    ensures !Proceeds(s, confirmed) ==> st.session == s
    ensures Proceeds(s, confirmed) ==>
              && st.session.text == [] && !st.session.isModified
              && st.session.currentFilename == DefaultName && st.session.fieldText == DefaultName
              && st.session.fileHandle == None
    ensures st.session.supportsFileSystemAPI == s.supportsFileSystemAPI
    ensures Valid(s) ==> Valid(st.session)
  {
    if !Proceeds(s, confirmed) then Step(s, Guard(s))
    else Step(Session([], false, DefaultName, DefaultName, None, s.supportsFileSystemAPI), Guard(s))
  }

  /** `openFile`: after the guard, the native picker when the API exists,
      the hidden file input otherwise (its `change` event is the separate
      `FileChosen` event below). */
  function OpenFile(s: Session, confirmed: bool, outcome: OpenOutcome): (st: Step)
    ensures !Proceeds(s, confirmed) ==> st == Step(s, [AskDiscard])
    ensures Proceeds(s, confirmed) ==>
              st.effects == Guard(s) + (if s.supportsFileSystemAPI then [ShowOpenPicker] else [ClickFileInput])
    ensures Proceeds(s, confirmed) && !s.supportsFileSystemAPI ==> st.session == s
    ensures Proceeds(s, confirmed) && s.supportsFileSystemAPI ==>
              st.session == OpenFileSystemFile(s, outcome).session
    ensures st.session.supportsFileSystemAPI == s.supportsFileSystemAPI
    ensures Valid(s) ==> Valid(st.session)
  {
    if !Proceeds(s, confirmed) then Step(s, Guard(s))
    else if s.supportsFileSystemAPI then After(Guard(s), OpenFileSystemFile(s, outcome))
    else Step(s, Guard(s) + [ClickFileInput])
  }

  datatype SavePath = OverwritePath | SaveAsPath | DownloadPath

  /** The branch `saveFile` takes; it reads nothing but the two arguments. */
  function ChooseSavePath(supportsFileSystemAPI: bool, handle: Option<Handle>): (p: SavePath)
    ensures p == OverwritePath <==> supportsFileSystemAPI && handle.Some?
    ensures p == SaveAsPath <==> supportsFileSystemAPI && handle.None?
    ensures p == DownloadPath <==> !supportsFileSystemAPI
  {
    if supportsFileSystemAPI then
      if handle.Some? then OverwritePath else SaveAsPath
    else DownloadPath
  }

  /** `saveFile`. The text and both filenames never change; the flag is
      cleared exactly when a copy of the text was written out. */
  function SaveFile(s: Session, env: SaveEnv): (st: Step)
    ensures st.session.text == s.text
    ensures st.session.currentFilename == s.currentFilename && st.session.fieldText == s.fieldText
    ensures st.session.supportsFileSystemAPI == s.supportsFileSystemAPI
    ensures st.session.isModified == (s.isModified && !Persists(st.effects))
    ensures WritesOnly(st.effects, s.text)
    ensures ChooseSavePath(s.supportsFileSystemAPI, s.fileHandle) == OverwritePath ==>
              && ShowsNoSavePicker(st.effects)
              && CommitsOnlyTo(st.effects, s.fileHandle.value)
              && st.session.fileHandle == s.fileHandle
              && (Persists(st.effects) <==> env.write.Written?)
    ensures ChooseSavePath(s.supportsFileSystemAPI, s.fileHandle) == SaveAsPath ==>
              |st.effects| >= 1 && st.effects[0] == ShowSavePicker(OrDefault(s.currentFilename))
    ensures ChooseSavePath(s.supportsFileSystemAPI, s.fileHandle) == SaveAsPath && env.pick.SaveCancelled? ==>
              st == Step(s, [ShowSavePicker(OrDefault(s.currentFilename))])
    ensures ChooseSavePath(s.supportsFileSystemAPI, s.fileHandle) == SaveAsPath && env.pick.SavePicked? ==>
              && st.session.fileHandle == Some(env.pick.handle)
              && CommitsOnlyTo(st.effects, env.pick.handle)
              && (Persists(st.effects) <==> env.write.Written?)
    ensures ChooseSavePath(s.supportsFileSystemAPI, s.fileHandle) == DownloadPath ==>
              && st.effects == [Download(NormalizeFilename(s.fieldText), s.text)]
              && st.session.fileHandle == s.fileHandle
    ensures Valid(s) ==> Valid(st.session)
  {
    match ChooseSavePath(s.supportsFileSystemAPI, s.fileHandle)
    case OverwritePath => Overwrite(s, env)
    case SaveAsPath => SaveAs(s, env)
    case DownloadPath => FallbackSave(s)
  }

  datatype KeyEvent = KeyEvent(key: string, ctrlKey: bool, metaKey: bool, shiftKey: bool, altKey: bool)

  datatype Command = NewCommand | OpenCommand | SaveCommand

  /** Ctrl or Meta held, with neither Shift nor Alt. */
  predicate ShortcutModifiers(e: KeyEvent) {
    (e.ctrlKey || e.metaKey) && !e.shiftKey && !e.altKey
  }

  /** The `keydown` listener's choice of action. */
  function Shortcut(e: KeyEvent): (c: Option<Command>)
    ensures c == Some(NewCommand) <==> ShortcutModifiers(e) && e.key in {"n", "N"}
    ensures c == Some(OpenCommand) <==> ShortcutModifiers(e) && e.key in {"o", "O"}
    ensures c == Some(SaveCommand) <==> ShortcutModifiers(e) && e.key in {"s", "S"}
    ensures c == None <==> !ShortcutModifiers(e) || e.key !in {"n", "N", "o", "O", "s", "S"}
  {
    LowerIsLetter(e.key, 'n');
    LowerIsLetter(e.key, 'o');
    LowerIsLetter(e.key, 's');
    if !ShortcutModifiers(e) then None
    else
      var k := ToLower(e.key);
      if k == "n" then Some(NewCommand)
      else if k == "o" then Some(OpenCommand)
      else if k == "s" then Some(SaveCommand)
      else None
  }

  /** The browser's answers to whatever one handler asks of it. */
  datatype Env = Env(confirmed: bool, open: OpenOutcome, save: SaveEnv)

  function RunCommand(s: Session, c: Command, env: Env): Step {
    match c
    case NewCommand => NewFile(s, env.confirmed)
    case OpenCommand => OpenFile(s, env.confirmed, env.open)
    case SaveCommand => SaveFile(s, env.save)
  }

  /** The `keydown` listener: a recognised shortcut suppresses the browser's
      own action and then runs; any other key does nothing at all. */
  function KeyDown(s: Session, e: KeyEvent, env: Env): (st: Step)
    ensures Shortcut(e) == None ==> st == Step(s, [])
    ensures Shortcut(e).Some? ==>
              && st.effects == [SuppressDefault] + RunCommand(s, Shortcut(e).value, env).effects
              && st.session == RunCommand(s, Shortcut(e).value, env).session
    ensures Valid(s) ==> Valid(st.session)
  {
    match Shortcut(e)
    case None => Step(s, [])
    case Some(c) => After([SuppressDefault], RunCommand(s, c, env))
  }

  /** Every event the page reacts to. */
  datatype Event =
    | Typed(newText: string)
    | FilenameTyped(raw: string)
    | Key(e: KeyEvent)
    | NewClicked
    | OpenClicked
    | SaveClicked
    | FileChosen(files: seq<LocalFile>)
    | Dropped(files: seq<LocalFile>)

  function Apply(s: Session, ev: Event, env: Env): (st: Step)
    ensures st.session.supportsFileSystemAPI == s.supportsFileSystemAPI
    ensures st.session.isModified ==> s.isModified || ev.Typed?
    ensures ev.Typed? ==> st.session.isModified
    ensures Valid(s) ==> Valid(st.session)
  {
    match ev
    case Typed(t) => Step(Edit(s, t), [])
    case FilenameTyped(raw) => Step(FilenameEdit(s, raw), [])
    case Key(e) => KeyDown(s, e, env)
    case NewClicked => NewFile(s, env.confirmed)
    case OpenClicked => OpenFile(s, env.confirmed, env.open)
    case SaveClicked => SaveFile(s, env.save)
    case FileChosen(files) => HandleFileOpen(s, files)
    case Dropped(files) => Drop(s, files)
  }

  /** The session after a whole run of events, each with its answers. */
  function Run(s: Session, events: seq<(Event, Env)>): Session
    decreases |events|
  {
    if events == [] then s
    else Run(Apply(s, events[0].0, events[0].1).session, events[1..])
  }
}

=== FILE: editor_state.dfy ===
/** The editor session: the four module-level variables of the editor script
    (`isModified`, `currentFilename`, `fileHandle` and the constant
    `supportsFileSystemAPI`) plus the editor's and the filename field's text,
    which live on the page and which the script reads and writes. */
module EditorState {
  import opened Text

  datatype Option<T> = None | Some(value: T)

  /** An opaque File System Access handle; only its `name` is ever read. */
  datatype Handle = Handle(id: nat, name: string)

  datatype Session = Session(
    text: string,                 // editor.value
    isModified: bool,
    currentFilename: string,
    fieldText: string,            // filenameInput.value
    fileHandle: Option<Handle>,
    supportsFileSystemAPI: bool)

  /** What a handler does outside the session record. */
  datatype Effect =
    | AskDiscard                              // confirm("You have unsaved changes...")
    | SuppressDefault                         // e.preventDefault() on a shortcut
    | ShowOpenPicker                          // showOpenFilePicker
    | ClickFileInput                          // the hidden <input type="file">
    | ShowSavePicker(suggestedName: string)   // showSaveFilePicker
    | Commit(target: Handle, contents: string) // createWritable / write / close all succeeded
    | Download(name: string, contents: string)  // Blob + hidden <a download>
    | Alert(message: string)
  {
    /** A copy of the editor text reached the user's disk. */
    predicate Writes() {
      Commit? || Download?
    }
  }

  /** The session after a handler, with the outside effects in order. */
  datatype Step = Step(session: Session, effects: seq<Effect>)

  const DefaultName: string := "untitled.txt"

  /** Some effect wrote a copy of the text out. */
  predicate Persists(effects: seq<Effect>)
    decreases |effects|
  {
    effects != [] && (effects[0].Writes() || Persists(effects[1..]))
  }

  lemma {:induction false} PersistsConcat(a: seq<Effect>, b: seq<Effect>)
    ensures Persists(a + b) <==> Persists(a) || Persists(b)
    decreases |a|
  {
    if a != [] {
      assert (a + b)[1..] == a[1..] + b;
      PersistsConcat(a[1..], b);
    } else {
      assert a + b == b;
    }
  }

  /** Everything written out is the given text. */
  predicate WritesOnly(effects: seq<Effect>, text: string) {
    forall i :: 0 <= i < |effects| && effects[i].Writes() ==> effects[i].contents == text
  }

  /** Every in-place write goes to handle `h`. */
  predicate CommitsOnlyTo(effects: seq<Effect>, h: Handle) {
    forall i :: 0 <= i < |effects| && effects[i].Commit? ==> effects[i].target == h
  }

  predicate ShowsNoSavePicker(effects: seq<Effect>) {
    forall i :: 0 <= i < |effects| ==> !effects[i].ShowSavePicker?
  }

  /** JavaScript's `name || "untitled.txt"`: the empty string is falsy. */
  function OrDefault(name: string): (r: string)
    ensures r != []
    ensures name != [] ==> r == name
    ensures name == [] ==> r == DefaultName
  {
    if name == [] then DefaultName else name
  }

  /** `value.trim() || "untitled.txt"`, used by the filename field handler
      and by the download fallback. */
  function NormalizeFilename(v: string): (r: string)
    ensures r != []
    ensures NoEdgeWhitespace(r)
    ensures AllWhitespace(v) ==> r == DefaultName
    ensures !AllWhitespace(v) ==> r == Trim(v)
  {
    if Trim(v) == [] then DefaultName else Trim(v)
  }

  lemma NormalizeFilenameIdempotent(v: string)
    ensures NormalizeFilename(NormalizeFilename(v)) == NormalizeFilename(v)
  {
  }

  /** What every reachable session satisfies: the filename is never empty,
      and a handle exists only where the File System Access API does. */
  predicate Valid(s: Session) {
    && s.currentFilename != []
    && (s.fileHandle.Some? ==> s.supportsFileSystemAPI)
  }

  /** The page at start-up. The editor's and the field's initial text come
      from the HTML, which the script leaves as it finds them; the script
      itself only sets the flag, `currentFilename` and the handle. */
  function Start(supportsFileSystemAPI: bool, editorText: string, fieldText: string): (s: Session)
    ensures Valid(s)
    ensures !s.isModified && s.fileHandle == None
    ensures s.currentFilename == DefaultName
    ensures s.text == editorText && s.fieldText == fieldText
    ensures s.supportsFileSystemAPI == supportsFileSystemAPI
  {
    Session(editorText, false, DefaultName, fieldText, None, supportsFileSystemAPI)
  }

  /** A successful read of file `name` into the editor: text replaced, the
      document clean, both filename copies set to `name || "untitled.txt"`,
      and the handle set to whatever the caller keeps. */
  function Load(s: Session, contents: string, name: string, handle: Option<Handle>): (r: Session)
    ensures r.text == contents && !r.isModified
    ensures r.currentFilename == r.fieldText && r.currentFilename != []
    ensures name != [] ==> r.currentFilename == name
    ensures name == [] ==> r.currentFilename == DefaultName
    ensures r.fileHandle == handle
    ensures r.supportsFileSystemAPI == s.supportsFileSystemAPI
    ensures Valid(s) && (handle.Some? ==> s.supportsFileSystemAPI) ==> Valid(r)
  {
    var n := OrDefault(name);
    s.(text := contents, isModified := false, currentFilename := n, fieldText := n, fileHandle := handle)
  }

  /** Prefixes effects that happened before the step. */
  function After(pre: seq<Effect>, st: Step): Step {
    Step(st.session, pre + st.effects)
  }
}

=== FILE: fallback.dfy ===
/** The path without the File System Access API: the hidden file input read
    with a `FileReader`, the Blob download, and drag-and-drop reading. */
module Fallback {
  import opened Text
  import opened EditorState

  /** How a `FileReader.readAsText` ends: `onload` with the text, or an error
      after which no handler of the script runs. */
  datatype ReadResult = ReadText(text: string) | Unreadable

  /** A `File` from the file input or from a drop. */
  datatype LocalFile = LocalFile(name: string, read: ReadResult)

  const DropRejection: string := "Please drop a .txt file!"
  const AcceptedExtension: string := ".txt"

  /** `handleFileOpen`: the first chosen file, read into the editor; the
      session loses any handle because a picked upload has none. */
  function HandleFileOpen(s: Session, files: seq<LocalFile>): (st: Step)
    ensures st.effects == []
    ensures files == [] || files[0].read.Unreadable? ==> st.session == s
    ensures files != [] && files[0].read.ReadText? ==>
              && st.session.text == files[0].read.text
              && !st.session.isModified
              && st.session.fileHandle == None
              && st.session.currentFilename == st.session.fieldText == OrDefault(files[0].name)
    ensures st.session.supportsFileSystemAPI == s.supportsFileSystemAPI
    ensures Valid(s) ==> Valid(st.session)
  {
    if files == [] then Step(s, [])
    else match files[0].read
      case Unreadable => Step(s, [])
      case ReadText(t) => Step(Load(s, t, files[0].name, None), [])
  }

  /** `fallbackSaveFile`: downloads the editor text under the normalised
      field text and marks the document clean; the handle and
      `currentFilename` stay as they were. */
  function FallbackSave(s: Session): (st: Step)
    ensures st.session == s.(isModified := false)
    ensures st.effects == [Download(NormalizeFilename(s.fieldText), s.text)]
    ensures Persists(st.effects) && WritesOnly(st.effects, s.text)
    ensures Valid(s) ==> Valid(st.session)
  {
    Step(s.(isModified := false), [Download(NormalizeFilename(s.fieldText), s.text)])
  }

  /** `handleDroppedFile`: a name not ending in ".txt" is refused with an
      alert; otherwise the file is read in and, unlike every other load,
      the handle is left as it was. */
  function HandleDroppedFile(s: Session, f: LocalFile): (st: Step)
    ensures !EndsWith(f.name, AcceptedExtension) ==> st == Step(s, [Alert(DropRejection)])
    ensures EndsWith(f.name, AcceptedExtension) ==> st.effects == []
    ensures f.read.Unreadable? ==> st.session == s
    ensures EndsWith(f.name, AcceptedExtension) && f.read.ReadText? ==>
              && st.session.text == f.read.text
              && !st.session.isModified
              && st.session.currentFilename == st.session.fieldText == f.name
    ensures st.session.fileHandle == s.fileHandle
    ensures st.session.supportsFileSystemAPI == s.supportsFileSystemAPI
    ensures Valid(s) ==> Valid(st.session)
  {
    if !EndsWith(f.name, AcceptedExtension) then Step(s, [Alert(DropRejection)])
    else match f.read
      case Unreadable => Step(s, [])
      case ReadText(t) =>
        assert f.name != [] by {
          var p :| f.name == p + AcceptedExtension;
        }
        Step(Load(s, t, f.name, s.fileHandle), [])
  }

  /** The editor's `drop` listener: it suppresses the browser's own drop
      action, then reads only the first dropped file. */
  function Drop(s: Session, files: seq<LocalFile>): (st: Step)
    ensures |st.effects| >= 1 && st.effects[0] == SuppressDefault
    ensures files == [] ==> st == Step(s, [SuppressDefault])
    ensures st.session.fileHandle == s.fileHandle
    ensures st.session.supportsFileSystemAPI == s.supportsFileSystemAPI
    ensures (st.effects == [SuppressDefault, Alert(DropRejection)]) <==>
              files != [] && !EndsWith(files[0].name, AcceptedExtension)
    ensures files != [] && !EndsWith(files[0].name, AcceptedExtension) ==> st.session == s
    ensures files != [] && EndsWith(files[0].name, AcceptedExtension) && files[0].read.Unreadable? ==>
              st == Step(s, [SuppressDefault])
    ensures files != [] && EndsWith(files[0].name, AcceptedExtension) && files[0].read.ReadText? ==>
              && st.effects == [SuppressDefault]
              && st.session.text == files[0].read.text
              && !st.session.isModified
              && st.session.currentFilename == st.session.fieldText == files[0].name
    ensures Valid(s) ==> Valid(st.session)
  {
    if files == [] then Step(s, [SuppressDefault])
    else After([SuppressDefault], HandleDroppedFile(s, files[0]))
  }
}

=== FILE: native.dfy ===
/** The File System Access path: native open, save-as and in-place overwrite.
    Each async function is one atomic step; the browser's answers arrive as
    parameters, and the points where the script has already stored a handle
    before a later await fails are explicit outcomes. */
module Native {
  import opened EditorState

  /** How `showOpenFilePicker` and the following `getFile().text()` end. */
  datatype OpenOutcome =
    | OpenCancelled                                 // the picker rejected (user cancel)
    | ReadFailed(handle: Handle)                    // picked, then getFile or text() rejected
    | Opened(handle: Handle, contents: string)

  /** How `showSaveFilePicker` ends. */
  datatype SavePick = SaveCancelled | SavePicked(handle: Handle)

  /** How `createWritable` / `write` / `close` end. */
  datatype WriteOutcome = Written | WriteFailed

  /** The browser's answers for one save; a save shows at most one picker
      and performs at most one write. */
  datatype SaveEnv = SaveEnv(pick: SavePick, write: WriteOutcome)

  /** `openFileSystemFile`. Without the API the picker call throws inside
      the `try` and nothing happens. */
  function OpenFileSystemFile(s: Session, outcome: OpenOutcome): (st: Step)
    ensures st.session.supportsFileSystemAPI == s.supportsFileSystemAPI
    ensures !s.supportsFileSystemAPI ==> st == Step(s, [])
    ensures s.supportsFileSystemAPI ==> st.effects == [ShowOpenPicker]
    ensures outcome.OpenCancelled? ==> st.session == s
    ensures s.supportsFileSystemAPI && outcome.ReadFailed? ==>
              st.session == s.(fileHandle := Some(outcome.handle))
    ensures s.supportsFileSystemAPI && outcome.Opened? ==>
              && st.session.text == outcome.contents
              && !st.session.isModified
              && st.session.fileHandle == Some(outcome.handle)
              && st.session.currentFilename == st.session.fieldText
              && (outcome.handle.name != [] ==> st.session.currentFilename == outcome.handle.name)
              && (outcome.handle.name == [] ==> st.session.currentFilename == DefaultName)
    ensures Valid(s) ==> Valid(st.session)
  {
    if !s.supportsFileSystemAPI then Step(s, [])
    else match outcome
      case OpenCancelled => Step(s, [ShowOpenPicker])
      case ReadFailed(h) => Step(s.(fileHandle := Some(h)), [ShowOpenPicker])
      case Opened(h, contents) => Step(Load(s, contents, h.name, Some(h)), [ShowOpenPicker])
  }

  /** `saveAsNewFileSystemFile`: the picker is pre-filled with the current
      filename; the chosen handle is stored before the write is attempted,
      and the filename is not updated from the chosen handle. */
  function SaveAs(s: Session, env: SaveEnv): (st: Step)
    decreases 1
    ensures st.session == s.(isModified := st.session.isModified, fileHandle := st.session.fileHandle)
    ensures st.session.isModified == (s.isModified && !Persists(st.effects))
    ensures WritesOnly(st.effects, s.text)
    ensures !s.supportsFileSystemAPI ==> st == Step(s, [])
    ensures s.supportsFileSystemAPI ==>
              |st.effects| >= 1 && st.effects[0] == ShowSavePicker(OrDefault(s.currentFilename))
    ensures s.supportsFileSystemAPI && env.pick.SaveCancelled? ==>
              st == Step(s, [ShowSavePicker(OrDefault(s.currentFilename))])
    ensures s.supportsFileSystemAPI && env.pick.SavePicked? ==>
              && st.session.fileHandle == Some(env.pick.handle)
              && CommitsOnlyTo(st.effects, env.pick.handle)
              && (Persists(st.effects) <==> env.write.Written?)
    ensures Valid(s) ==> Valid(st.session)
  {
    if !s.supportsFileSystemAPI then Step(s, [])
    else
      var ask := [ShowSavePicker(OrDefault(s.currentFilename))];
      match env.pick
      case SaveCancelled => Step(s, ask)
      case SavePicked(h) =>
        var st := Overwrite(s.(fileHandle := Some(h)), env);
        assert forall i :: 1 <= i < |ask + st.effects| ==> (ask + st.effects)[i] == st.effects[i - 1];
        PersistsConcat(ask, st.effects);
        After(ask, st)
  }

  /** `overwriteFileSystemFile`: with no handle it is save-as; otherwise one
      write of the whole editor text, which clears `isModified` only when it
      succeeds. */
  function Overwrite(s: Session, env: SaveEnv): (st: Step)
    decreases if s.fileHandle.Some? then 0 else 2
    ensures st.session == s.(isModified := st.session.isModified, fileHandle := st.session.fileHandle)
    ensures st.session.isModified == (s.isModified && !Persists(st.effects))
    ensures WritesOnly(st.effects, s.text)
    ensures s.fileHandle.Some? ==>
              && st.session.fileHandle == s.fileHandle
              && ShowsNoSavePicker(st.effects)
              && CommitsOnlyTo(st.effects, s.fileHandle.value)
              && (Persists(st.effects) <==> env.write.Written?)
              && st.effects == (if env.write.Written? then [Commit(s.fileHandle.value, s.text)] else [])
    ensures s.fileHandle.None? && !s.supportsFileSystemAPI ==> st == Step(s, [])
    ensures s.fileHandle.None? && s.supportsFileSystemAPI ==>
              |st.effects| >= 1 && st.effects[0] == ShowSavePicker(OrDefault(s.currentFilename))
    ensures s.fileHandle.None? && s.supportsFileSystemAPI && env.pick.SaveCancelled? ==>
              st == Step(s, [ShowSavePicker(OrDefault(s.currentFilename))])
    ensures s.fileHandle.None? && s.supportsFileSystemAPI && env.pick.SavePicked? ==>
              && st.session.fileHandle == Some(env.pick.handle)
              && CommitsOnlyTo(st.effects, env.pick.handle)
              && (Persists(st.effects) <==> env.write.Written?)
    ensures Valid(s) ==> Valid(st.session)
  {
    match s.fileHandle
    case None => SaveAs(s, env)
    case Some(h) =>
      match env.write
      case Written => Step(s.(isModified := false), [Commit(h, s.text)])
      case WriteFailed => Step(s, [])
  }
}

=== FILE: scenarios.dfy ===
/** Properties that relate several handlers: the invariant over whole runs,
    the discard guard, save dispatch and its termination, load/save round
    trips, worked scenarios, and the places where the script stores a handle
    that the rest of the session does not match. */
module Scenarios {
  import opened Text
  import opened EditorState
  import opened Native
  import opened Fallback
  import opened Controller

  /** `Valid` holds in every state reachable from start-up, and the
      capability flag never changes. */
  lemma {:induction false} RunPreservesValid(s: Session, events: seq<(Event, Env)>)
    requires Valid(s)
    ensures Valid(Run(s, events))
    ensures Run(s, events).supportsFileSystemAPI == s.supportsFileSystemAPI
    decreases |events|
  {
    if events != [] {
      RunPreservesValid(Apply(s, events[0].0, events[0].1).session, events[1..]);
    }
  }

  lemma ReachableIsValid(supportsFileSystemAPI: bool, editorText: string, fieldText: string, events: seq<(Event, Env)>)
    ensures Valid(Run(Start(supportsFileSystemAPI, editorText, fieldText), events))
    ensures !supportsFileSystemAPI ==> Run(Start(supportsFileSystemAPI, editorText, fieldText), events).fileHandle == None
  {
    RunPreservesValid(Start(supportsFileSystemAPI, editorText, fieldText), events);
  }

  predicate IsTyping(ev: Event) {
    ev.Typed? || ev.FilenameTyped?
  }

  /** Over a run of typing in the editor and the filename field, the
      document is modified exactly when it was before or some text was
      typed, and the unload prompt follows it. */
  lemma {:induction false} TypingSetsModified(s: Session, events: seq<(Event, Env)>)
    requires forall i :: 0 <= i < |events| ==> IsTyping(events[i].0)
    ensures Run(s, events).isModified <==> s.isModified || exists i :: 0 <= i < |events| && events[i].0.Typed?
    decreases |events|
  {
    if events != [] {
      var next := Apply(s, events[0].0, events[0].1).session;
      TypingSetsModified(next, events[1..]);
      assert forall i :: 0 <= i < |events| - 1 ==> events[1..][i] == events[i + 1];
      if exists i :: 0 <= i < |events| && events[i].0.Typed? {
        var i :| 0 <= i < |events| && events[i].0.Typed?;
        if i > 0 {
          assert events[1..][i - 1].0.Typed?;
        }
      }
    }
  }

  /** From a clean session, the leave-page prompt can only be up after some
      editor typing: no load, save, New, filename edit or drop raises the
      flag. Typing as the last event always raises it. */
  lemma {:induction false} UnloadPromptOnlyAfterTyping(s: Session, events: seq<(Event, Env)>)
    ensures BeforeUnload(Run(s, events)) ==>
              s.isModified || exists i :: 0 <= i < |events| && events[i].0.Typed?
    ensures events != [] && events[|events| - 1].0.Typed? ==> BeforeUnload(Run(s, events))
    decreases |events|
  {
    if events != [] {
      var next := Apply(s, events[0].0, events[0].1).session;
      UnloadPromptOnlyAfterTyping(next, events[1..]);
      if |events| > 1 {
        assert events[1..][|events[1..]| - 1] == events[|events| - 1];
      }
      if Run(next, events[1..]).isModified && !next.isModified {
        var j :| 0 <= j < |events[1..]| && events[1..][j].0.Typed?;
        assert events[j + 1].0.Typed?;
      }
    }
  }

  lemma FreshPagePromptsOnlyAfterTyping(supportsFileSystemAPI: bool, editorText: string, fieldText: string,
                                        events: seq<(Event, Env)>)
    ensures Run(Start(supportsFileSystemAPI, editorText, fieldText), events).isModified ==>
              exists i :: 0 <= i < |events| && events[i].0.Typed?
  {
    UnloadPromptOnlyAfterTyping(Start(supportsFileSystemAPI, editorText, fieldText), events);
  }

  /** A declined discard changes nothing and starts no I/O, whether it
      comes from a button or from a shortcut. */
  lemma DeclinedDiscardIsInert(s: Session, env: Env, e: KeyEvent)
    requires s.isModified && !env.confirmed
    ensures NewFile(s, env.confirmed) == Step(s, [AskDiscard])
    ensures OpenFile(s, env.confirmed, env.open) == Step(s, [AskDiscard])
    ensures Shortcut(e) == Some(NewCommand) || Shortcut(e) == Some(OpenCommand) ==>
              KeyDown(s, e, env) == Step(s, [SuppressDefault, AskDiscard])
  {
  }

  /** After New the session forgets everything except the capability flag,
      and a second New is a no-op. */
  lemma NewFileForgets(s1: Session, s2: Session, c1: bool, c2: bool)
    requires Proceeds(s1, c1) && Proceeds(s2, c2)
    requires s1.supportsFileSystemAPI == s2.supportsFileSystemAPI
    ensures NewFile(s1, c1).session == NewFile(s2, c2).session
    ensures NewFile(NewFile(s1, c1).session, false) == Step(NewFile(s1, c1).session, [])
  {
  }

  /** Saving does not look at `isModified`: sessions that differ only in
      the flag produce the same effects. */
  lemma SaveIgnoresModifiedFlag(s1: Session, s2: Session, env: SaveEnv)
    requires s1.supportsFileSystemAPI == s2.supportsFileSystemAPI && s1.fileHandle == s2.fileHandle
    requires s1.text == s2.text && s1.currentFilename == s2.currentFilename && s1.fieldText == s2.fieldText
    ensures SaveFile(s1, env).effects == SaveFile(s2, env).effects
  {
  }

  /** Overwrite without a handle goes through save-as, which stores the
      picked handle and overwrites once: one picker, one write, done. */
  lemma OverwriteWithoutHandleSavesAs(s: Session, h: Handle)
    requires s.supportsFileSystemAPI && s.fileHandle == None
    ensures Overwrite(s, SaveEnv(SavePicked(h), Written)) ==
              Step(s.(isModified := false, fileHandle := Some(h)),
                   [ShowSavePicker(OrDefault(s.currentFilename)), Commit(h, s.text)])
    ensures Overwrite(s, SaveEnv(SavePicked(h), WriteFailed)) ==
              Step(s.(fileHandle := Some(h)), [ShowSavePicker(OrDefault(s.currentFilename))])
    ensures Overwrite(s, SaveEnv(SaveCancelled, Written)) ==
              Step(s, [ShowSavePicker(OrDefault(s.currentFilename))])
  {
  }

  /** Without the API, downloading and re-uploading the downloaded file
      gives back the same text, clean, under the normalised field name. */
  lemma FallbackRoundTrip(s: Session, env: SaveEnv)
    requires !s.supportsFileSystemAPI
    ensures var name := NormalizeFilename(s.fieldText);
            var st := SaveFile(s, env);
            && st.effects == [Download(name, s.text)]
            && var back := HandleFileOpen(st.session, [LocalFile(name, ReadText(s.text))]).session;
            && back.text == s.text
            && !back.isModified
            && back.currentFilename == back.fieldText == name
            && back.fileHandle == None
  {
  }

  /** With the API, opening a file and saving straight away writes the same
      contents back through the same handle, without a picker. */
  lemma NativeOpenThenSave(s: Session, h: Handle, contents: string)
    requires s.supportsFileSystemAPI
    ensures var loaded := OpenFileSystemFile(s, Opened(h, contents)).session;
            && loaded.fileHandle == Some(h)
            && SaveFile(loaded, SaveEnv(SaveCancelled, Written)) ==
                 Step(loaded.(isModified := false), [Commit(h, contents)])
  {
  }

  const Hello: string := "hello"

  lemma DefaultNameIsNormal()
    ensures NormalizeFilename(DefaultName) == DefaultName
    ensures NormalizeFilename("") == DefaultName
  {
  }

  /** Fresh page without the API, type "hello", save: a download named
      "untitled.txt" holding "hello", and the document is clean. */
  lemma TypeHelloAndDownload(field: string, env: SaveEnv)
    requires field == DefaultName || field == ""
    ensures var s := Edit(Start(false, "", field), Hello);
            var st := SaveFile(s, env);
            && st.effects == [Download(DefaultName, Hello)]
            && !st.session.isModified
  {
    DefaultNameIsNormal();
  }

  /** Open "notes.txt" holding "abc" through the native picker, then save:
      the same file is overwritten with "abc" and no picker is shown. */
  lemma OpenNotesThenSave(s: Session, id: nat)
    requires s.supportsFileSystemAPI && !s.isModified
    ensures var h := Handle(id, "notes.txt");
            var st := OpenFile(s, false, Opened(h, "abc"));
            && st.session.text == "abc" && st.session.fieldText == "notes.txt"
            && !st.session.isModified && st.session.fileHandle == Some(h)
            && SaveFile(st.session, SaveEnv(SaveCancelled, Written)).effects == [Commit(h, "abc")]
  {
  }

  /** Dropping "data.csv" is refused with an alert and no change; dropping
      "data.txt" holding "xyz" loads it and keeps whatever handle the
      session had. */
  lemma DropScenarios(s: Session)
    ensures Drop(s, [LocalFile("data.csv", ReadText("xyz"))]) == Step(s, [SuppressDefault, Alert(DropRejection)])
    ensures var st := Drop(s, [LocalFile("data.txt", ReadText("xyz"))]);
            && st.effects == [SuppressDefault]
            && st.session.text == "xyz" && st.session.currentFilename == "data.txt"
            && !st.session.isModified
            && st.session.fileHandle == s.fileHandle
  {
  }

  /** The drop keeps the earlier native handle, so the next save writes the
      dropped text over the previously opened file, not the dropped one. */
  lemma DropThenSaveOverwritesEarlierFile(s: Session, h: Handle, f: LocalFile)
    requires s.supportsFileSystemAPI && s.fileHandle == Some(h)
    requires EndsWith(f.name, AcceptedExtension) && f.read.ReadText?
    ensures var dropped := Drop(s, [f]).session;
            && dropped.currentFilename == f.name
            && SaveFile(dropped, SaveEnv(SaveCancelled, Written)).effects == [Commit(h, f.read.text)]
  {
  }

  /** A native open whose read fails still stores the handle: the editor
      keeps its old text and name, and the next save writes that old text
      into the file that was picked. */
  lemma FailedOpenKeepsPickedHandle(s: Session, h: Handle)
    requires s.supportsFileSystemAPI
    ensures var st := OpenFileSystemFile(s, ReadFailed(h)).session;
            && st.text == s.text && st.currentFilename == s.currentFilename
            && st.isModified == s.isModified
            && SaveFile(st, SaveEnv(SaveCancelled, Written)).effects == [Commit(h, s.text)]
  {
  }

  /** A save-as whose write fails still stores the picked handle: the
      document stays modified and the next save goes straight to overwrite. */
  lemma FailedSaveAsKeepsPickedHandle(s: Session, h: Handle)
    requires s.supportsFileSystemAPI && s.fileHandle == None
    ensures var st := SaveFile(s, SaveEnv(SavePicked(h), WriteFailed));
            && st.effects == [ShowSavePicker(OrDefault(s.currentFilename))]
            && st.session.isModified == s.isModified
            && st.session.fileHandle == Some(h)
            && ChooseSavePath(true, st.session.fileHandle) == OverwritePath
  {
  }
}

=== FILE: text.dfy ===
/** String helpers the editor relies on: JavaScript's `String.prototype.trim`,
    `endsWith` and `toLowerCase`, restated over `seq<char>`. */
module Text {

  /** The ECMAScript WhiteSpace and LineTerminator code points: exactly the
      characters `trim` removes from either end of a string. */
  const Whitespace: set<char> := {
    '\t', '\n', '\U{000B}', '\U{000C}', '\r', ' ', '\U{00A0}', '\U{1680}',
    '\U{2000}', '\U{2001}', '\U{2002}', '\U{2003}', '\U{2004}', '\U{2005}',
    '\U{2006}', '\U{2007}', '\U{2008}', '\U{2009}', '\U{200A}',
    '\U{2028}', '\U{2029}', '\U{202F}', '\U{205F}', '\U{3000}', '\U{FEFF}'
  }

  predicate IsWhitespace(c: char) {
    c in Whitespace
  }

  /** Every character of `s` at an index in `[lo, hi)` is whitespace. */
  predicate WhitespaceBetween(s: string, lo: int, hi: int)
    requires 0 <= lo && hi <= |s|
  {
    forall i :: lo <= i < hi ==> IsWhitespace(s[i])
  }

  predicate AllWhitespace(s: string) {
    WhitespaceBetween(s, 0, |s|)
  }

  /** Neither the first nor the last character (if any) is whitespace. */
  predicate NoEdgeWhitespace(s: string) {
    s != [] ==> !IsWhitespace(s[0]) && !IsWhitespace(s[|s| - 1])
  }

  /** Drops the leading whitespace (`TrimStartSpec` says what is left). */
  function TrimStart(s: string): string {
    if s != [] && IsWhitespace(s[0]) then TrimStart(s[1..]) else s
  }

  /** Drops the trailing whitespace (`TrimEndSpec` says what is left). */
  function TrimEnd(s: string): string {
    if s != [] && IsWhitespace(s[|s| - 1]) then TrimEnd(s[..|s| - 1]) else s
  }

  /** What is left after `TrimStart` is the suffix of `s` that starts at its
      first non-whitespace character. */
  lemma {:induction false} TrimStartSpec(s: string)
    ensures var r := TrimStart(s);
            && |r| <= |s| && r == s[|s| - |r|..]
            && WhitespaceBetween(s, 0, |s| - |r|)
            && (r != [] ==> !IsWhitespace(r[0]))
    decreases |s|
  {
    if s != [] && IsWhitespace(s[0]) {
      TrimStartSpec(s[1..]);
      assert forall i :: 1 <= i < |s| ==> s[i] == s[1..][i - 1];
    }
  }

  /** What is left after `TrimEnd` is the prefix of `s` that ends at its last
      non-whitespace character. */
  lemma {:induction false} TrimEndSpec(s: string)
    ensures var r := TrimEnd(s);
            && |r| <= |s| && r == s[..|r|]
            && WhitespaceBetween(s, |r|, |s|)
            && (r != [] ==> !IsWhitespace(r[|r| - 1]))
    decreases |s|
  {
    if s != [] && IsWhitespace(s[|s| - 1]) {
      TrimEndSpec(s[..|s| - 1]);
      assert forall i :: 0 <= i < |s| - 1 ==> s[i] == s[..|s| - 1][i];
    }
  }

  /** `s.trim()`: both ends stripped; empty exactly when `s` is all whitespace. */
  function Trim(s: string): (r: string)
    ensures NoEdgeWhitespace(r)
    ensures r == [] <==> AllWhitespace(s)
  {
    var t := TrimStart(s);
    TrimStartSpec(s);
    TrimEndSpec(t);
    var r := TrimEnd(t);
    assert r != [] ==> r[0] == t[0];
    r
  }

  lemma {:induction false} TrimStartOfPadded(pre: string, x: string)
    requires AllWhitespace(pre)
    requires x != [] ==> !IsWhitespace(x[0])
    ensures TrimStart(pre + x) == x
    decreases |pre|
  {
    if pre == [] {
      assert pre + x == x;
    } else {
      assert (pre + x)[1..] == pre[1..] + x;
      TrimStartOfPadded(pre[1..], x);
    }
  }

  lemma {:induction false} TrimEndOfPadded(x: string, post: string)
    requires AllWhitespace(post)
    requires x != [] ==> !IsWhitespace(x[|x| - 1])
    ensures TrimEnd(x + post) == x
    decreases |post|
  {
    if post == [] {
      assert x + post == x;
    } else {
      var p := post[..|post| - 1];
      assert (x + post)[..|x + post| - 1] == x + p;
      TrimEndOfPadded(x, p);
    }
  }

  /** Reference characterisation of `trim`: whitespace around a core with no
      whitespace at its edges is exactly what gets removed. */
  lemma TrimOfPadded(pre: string, core: string, post: string)
    requires AllWhitespace(pre) && AllWhitespace(post)
    requires NoEdgeWhitespace(core)
    ensures Trim(pre + core + post) == core
  {
    if core == [] {
      assert pre + core + post == pre + post;
      assert AllWhitespace(pre + post) by {
        forall i | 0 <= i < |pre + post|
          ensures IsWhitespace((pre + post)[i])
        {
          if i >= |pre| {
            assert (pre + post)[i] == post[i - |pre|];
          }
        }
      }
    } else {
      assert pre + core + post == pre + (core + post);
      TrimStartOfPadded(pre, core + post);
      TrimEndOfPadded(core, post);
    }
  }

  /** Every string is its trimmed form wrapped in whitespace; `pre` and
      `post` are what `trim` removed. */
  lemma TrimSplits(s: string) returns (pre: string, post: string)
    ensures AllWhitespace(pre) && AllWhitespace(post)
    ensures s == pre + Trim(s) + post
  {
    var t := TrimStart(s);
    var r := TrimEnd(t);
    TrimStartSpec(s);
    TrimEndSpec(t);
    pre, post := s[..|s| - |t|], t[|r|..];
    Unwrap(s, t, r);
  }

  /** Peeling whitespace off the front and then off the back leaves the
      string as prefix, core and suffix. */
  lemma Unwrap(s: string, t: string, r: string)
    requires |t| <= |s| && t == s[|s| - |t|..] && WhitespaceBetween(s, 0, |s| - |t|)
    requires |r| <= |t| && r == t[..|r|] && WhitespaceBetween(t, |r|, |t|)
    ensures AllWhitespace(s[..|s| - |t|]) && AllWhitespace(t[|r|..])
    ensures s == s[..|s| - |t|] + r + t[|r|..]
  {
  }

  lemma TrimIdempotent(s: string)
    ensures Trim(Trim(s)) == Trim(s)
  {
  }

  /** `s.endsWith(suffix)`. */
  function EndsWith(s: string, suffix: string): (b: bool)
    ensures b <==> exists p :: s == p + suffix
  {
    var b := |suffix| <= |s| && s[|s| - |suffix|..] == suffix;
    assert b ==> s == s[..|s| - |suffix|] + suffix;
    assert forall p :: s == p + suffix ==> b by {
      forall p | s == p + suffix
        ensures b
      {
        assert s[|p|..] == suffix;
      }
    }
    b
  }

  /** Upper-case ASCII letters lowered; every other character kept. */
  function LowerChar(c: char): char {
    if 'A' <= c <= 'Z' then (c as int + 32) as char else c
  }

  /** `s.toLowerCase()`, restricted to the ASCII letters. */
  function ToLower(s: string): (r: string)
    ensures |r| == |s|
    ensures forall i :: 0 <= i < |s| ==> r[i] == LowerChar(s[i])
  {
    if s == [] then [] else [LowerChar(s[0])] + ToLower(s[1..])
  }

  /** The only keys that lower-case to a given lower-case letter are that
      letter and its capital. */
  lemma LowerIsLetter(k: string, c: char)
    requires 'a' <= c <= 'z'
    ensures ToLower(k) == [c] <==> (k == [c] || k == [(c as int - 32) as char])
  {
  }
}
